=== FILE: README.md ===
# StringBuilder buffer engine, in Dafny

A model of the growable character buffer in `StringBuilder.java`. The buffer is a backing
`char[]` whose length is the capacity, plus `index`, the count of live characters at its
front (`length()`). The model covers:

- **Capacity planning**: `getRequiredSize` and the rounded occupancy percentage
  `getPercentageOccupied`.
- **Growth**: `resizeArrayAndCopyContent`, `ensureEnoughSpace` and `probeResizing`.
- **Element shifting**: `System.arraycopy` within one array, and `shiftElementsLeft`.
- **Public operations**:
  - the three constructors;
  - `append(char)` and `insert(int, char)`;
  - `append(char[], offset, length)`;
  - the `append`/`insert` overloads for `char[]`, `String`, `int`, `long` and `boolean`;
  - `charAt`, `deleteCharAt`, `delete`, `reverse` and `toString`;
  - `indexOf`/`lastIndexOf`, with and without a start position.

Modules:

- `Results`: the error kinds, and `Result`/`Option`.
- `Planning`:
  - the constants `DEFAULT_SIZE = 10`, `RESIZING_FACTOR = 2` and `LOAD_FACTOR = 75`;
  - the exact integer form of `Math.round(e / t * 100)`, which is `(200e + t) / (2t)`;
  - the doubling loop of `getRequiredSize`, both as a recursive function and as the Java loop.
- `Arrays`:
  - `System.arraycopy` as a function on sequences;
  - the overlapping in-array copy and the left shift, each a loop proved equal to that function;
  - the in-place reversal, a swap loop proved equal to reversing the first `count` slots.
- `Conversions`: the text of an `int`, `long` or `boolean` argument.
- `Search`: `String.indexOf` and `String.lastIndexOf` over the text.
- `Buffers`: the `Buffer` value and every operation.
  - Each public mutator is a function from the old buffer to the new one.
  - `Err` stands for the exception the Java method throws.
  - Every Java check comes before the first write, so a call that throws leaves the buffer as it was.
- `Lifecycle`: with the code as written, any sequence of calls keeps the class invariant, and the capacity only ever doubles. Every `delete(start, end)` in the sequence must have `start <= end`; see "## Left out".
- `Scenarios`: the concrete runs of `StringBuilderTest.java`.

The class invariant is `Buffers.Buffer.Valid`: the array is non-empty and the rounded
occupancy is at most 75%. It implies `index < capacity`. That is why the unchecked write
`arr[index++]` in `append(char)` stays inside the array, and so does the read of `arr[index]`
when `deleteCharAt` shifts left.

## Model

| member | source | states |
|---|---|---|
| Planning.PercentageOccupied | StringBuilder.java:318-320 | `elements/total*100` rounded half up, as a natural number bracketed exactly by the rational value |
| Planning.AboveLoadFactor | StringBuilder.java:299 | rounded occupancy above 75 iff `200*elements >= 151*total` |
| Planning.ReachesLoadFactor | StringBuilder.java:290 | rounded occupancy at least 75 iff `200*elements >= 149*total` |
| Planning.FitsIff | StringBuilder.java:299 | the loop's exit test (room for `n` more, occupancy at most 75) is equivalent to `200*(index+n) < 151*size` |
| Planning.RequiredSize | StringBuilder.java:295-304 | the planned capacity is never below the current one and fits `index + n` characters under the load factor |
| Planning.RequiredSizeIsLeastDoubling | StringBuilder.java:295-304 | the planned capacity is `size * 2^k` for the least `k` at which the contents fit |
| Planning.GetRequiredSize | StringBuilder.java:295-304 | the Java doubling loop ends, returns the planned capacity, and that capacity fits |
| Arrays.NewCharArray | StringBuilder.java:313 | a new array has the requested length and every slot holds `'\0'` |
| Arrays.ArrayCopy | StringBuilder.java:139-142 | `System.arraycopy`: `length` elements of `src` from `srcPos` land at `destPos`; every other slot of `dest` is unchanged |
| Arrays.CopyWithin | StringBuilder.java:139 | an illustration of the same-array `System.arraycopy` (the JDK's native code is not in the repository): copying forwards or backwards according to direction gives the same result as copying from a snapshot, which is what `ArrayCopy` states |
| Arrays.ShiftElementsLeft | StringBuilder.java:322-330 | the left-shift loop equals the copy of `(position, last]` one slot down |
| Arrays.ReverseInPlace | StringBuilder.java:85-97 | the swap loop up to `index/2` reverses the first `count` slots and leaves the rest alone |
| Buffers.Buffer.ToString | StringBuilder.java:255-258 | a copy of the live characters: `length()` of them, each the array's slot at the same position |
| Buffers.ValidIff | StringBuilder.java:318-320 | the class invariant in integer form: `200*index < 151*capacity` |
| Buffers.ValidHasRoom | StringBuilder.java:119-125 | under the invariant there is always a free slot for the unchecked write `arr[index++]` |
| Buffers.NewBuffer | StringBuilder.java:17-19 | an empty buffer of capacity 10 that satisfies the invariant |
| Buffers.NewBufferWithCapacity | StringBuilder.java:21-23 | an empty buffer of exactly the requested capacity |
| Buffers.NewBufferFrom | StringBuilder.java:25-39 | throws InvalidParameter exactly for a null or empty string; otherwise the text is the string and the capacity is the one planned from 10 |
| Buffers.Resize | StringBuilder.java:312-316 | the new array has the requested size, and the text and length are kept |
| Buffers.EnsureEnoughSpace | StringBuilder.java:149-155 | capacity becomes the planned one and the text is kept; when the plan matches the current capacity, the buffer is the same one |
| Buffers.ProbeResizing | StringBuilder.java:289-293 | capacity doubles exactly when the rounded occupancy reaches 75; the result satisfies the invariant |
| Buffers.AppendChar | StringBuilder.java:119-125 | the text gains the character at its end; the capacity doubles iff the new occupancy reaches 75; the invariant is kept |
| Buffers.InsertChar | StringBuilder.java:168-179 | throws InvalidParameter iff `offset` is outside `[0, length]`; otherwise the character lands at `offset` with the old text around it, and growth is as for `append(char)` |
| Buffers.AppendAt | StringBuilder.java:134-147 | throws InvalidParameter iff `offset` is outside `[0, length]`; otherwise `chars[..length]` is spliced in at `offset`, the capacity is the planned one, and the invariant is kept |
| Buffers.SpliceIn | StringBuilder.java:138-144 | moving the tail right and copying the new characters into the gap gives old prefix, new characters, old suffix |
| Buffers.OpenGapAndFill | StringBuilder.java:138-142 | the two `arraycopy` calls, element by element, give the spliced text |
| Buffers.AppendElements | StringBuilder.java:267-275 | the text gains the characters at its end, in planned capacity, keeping the invariant |
| Buffers.AppendAtEndIsAppend | StringBuilder.java:134-147 | inserting a whole array at `offset == length` is the same buffer as appending it |
| Buffers.Append | StringBuilder.java:227-253 | the `append` overloads add the value's text at the end |
| Buffers.Insert | StringBuilder.java:181-219 | the `insert` overloads throw iff `offset` is outside `[0, length]` and otherwise splice the value's text in at `offset` |
| Buffers.CharAt | StringBuilder.java:45-50 | throws IndexOutOfBounds iff `position` is outside `[0, length)`; otherwise the character of the text at `position` |
| Buffers.DeleteCharAt | StringBuilder.java:57-65 | throws IndexOutOfBounds iff `position` is outside `[0, length)`; otherwise the text loses exactly that character, and capacity and invariant are kept |
| Buffers.DeleteCharAtByLoop | StringBuilder.java:58-64 | the bounds check, then the `shiftElementsLeft` loop up to `index`, then `index - 1`, gives exactly the result `DeleteCharAt` describes, exception included |
| Buffers.CloseOneSlot | StringBuilder.java:322-330 | shifting `(position, index]` down by one removes the character at `position` from the text |
| Buffers.CloseRange | StringBuilder.java:75-79 | copying `[end, index)` down to `start` and shortening by `end - start` leaves `text[..start] + text[end..]` |
| Buffers.DeleteAsWritten | StringBuilder.java:67-82 | the method as written: the error cases are the Java test plus the `arraycopy` bound; otherwise the new length is `index - (end - start)` and the text is `text[..start] + text[end..]` |
| Buffers.Delete | StringBuilder.java:67-82 | with `start > end` rejected too: throws iff the range is not inside `[0, length]` with `start < length`; otherwise `[start, end)` is removed, keeping capacity and invariant |
| Buffers.DeleteAgreesWhenOrdered | StringBuilder.java:68-79 | for `start <= end` the method as written and the corrected one agree |
| Buffers.DeleteAsWrittenOverfills | StringBuilder.java:69 | `delete(3, 0)` on "abcdefg" in 10 slots passes the check, yields "abcabcdefg" and fills every slot, breaking the invariant; the corrected one throws |
| Buffers.Reverse | StringBuilder.java:85-97 | the text is reversed, length and capacity are kept, stale slots are untouched, and the invariant is kept |
| Buffers.ReverseByLoop | StringBuilder.java:85-97 | running the swap loop over the first `length` slots gives exactly the buffer `Reverse` describes |
| Buffers.ReverseTwice | StringBuilder.java:85-97 | reversing twice gives back the identical buffer, stale slots included |
| Conversions.NaturalDigits | StringBuilder.java:193 | the decimal digits of a natural number: non-empty, all digits, no leading zero |
| Conversions.DecimalString | StringBuilder.java:193 | `String.valueOf` of an integer: a leading `-` exactly for negatives, then digits with no leading zero |
| Conversions.DecimalRoundTrip | StringBuilder.java:192-195 | the decimal text of any integer parses back to that integer |
| Conversions.BooleanChars | StringBuilder.java:277-287 | the word is `true` exactly for `true`, and `false` otherwise |
| Conversions.Render | StringBuilder.java:186-253 | the text an overload writes: a char array or String unchanged; an `int` or `long` as decimal text without leading zeros, signed exactly when negative, that parses back to the same number; a boolean as its word |
| Search.FirstFrom | StringBuilder.java:114-117 | forward scan: the first occurrence at or after `k`, or -1 when there is none |
| Search.LastFrom | StringBuilder.java:104-107 | backward scan: the last occurrence at or before `k`, or -1 when there is none |
| Search.IndexOf | StringBuilder.java:114-117 | -1 iff there is no occurrence from `fromIndex` on; otherwise an occurrence there, with none earlier |
| Search.LastIndexOf | StringBuilder.java:104-107 | -1 iff there is no occurrence at or before `fromIndex`; otherwise an occurrence there, with none later |
| Search.FoundEitherWay | StringBuilder.java:99-112 | searching forward from the start and backward from the end agree on whether the needle occurs |
| Search.FirstNotAfterLast | StringBuilder.java:99-112 | when the needle occurs, the first occurrence is never after the last |
| Lifecycle.PlannedIsDoubling | StringBuilder.java:295-304 | the planned capacity is the old one doubled some number of times |
| Lifecycle.DoublingTransitive | StringBuilder.java:291 | doubling twice in succession is still a doubling of the original capacity |
| Lifecycle.Apply | StringBuilder.java:58-253 | any modelled public mutator that returns leaves a buffer that satisfies the invariant, with its capacity a doubling of the old one; `delete` is the code as written, called with `start <= end` |
| Lifecycle.Step | StringBuilder.java:58-253 | after any such call, thrown or not, the buffer satisfies the invariant |
| Lifecycle.Run | StringBuilder.java:58-253 | along any sequence of such calls the invariant holds, `index < capacity`, and capacity never shrinks and only doubles |
| Lifecycle.StepAppends | StringBuilder.java:227-253 | one `append` call adds exactly the value's text at the end |
| Lifecycle.AppendsConcatenate | StringBuilder.java:227-253 | any run of `append` calls leaves the old text followed by all the appended texts in order |
| Scenarios.PlannedCapacities | StringBuilderTest.java:34-49 | planning for 4 characters keeps 10 slots; for 90 characters it gives 160 |
| Scenarios.ConstructFromString | StringBuilderTest.java:34-49 | `new StringBuilder("Test")` has capacity 10 and the text "Test"; a 90-character string gives capacity 160 and length 90 |
| Scenarios.RejectsMissingText | StringBuilderTest.java:608-616 | `new StringBuilder("")` and `new StringBuilder(null)` throw InvalidParameterException |
| Scenarios.EightAppends | StringBuilderTest.java:53-77 | seven appended characters keep 10 slots, and the eighth doubles to 20 |
| Scenarios.AppendAtEndGrows | StringBuilderTest.java:91-95 | splicing "GHI" at 6 gives "ABCDEFGHI" in 20 slots |
| Scenarios.InsertAtFront | StringBuilderTest.java:97-101 | splicing "MMMM" at 0 keeps 20 slots |
| Scenarios.InsertInMiddleGrows | StringBuilderTest.java:103-107 | splicing twelve R's at 4 grows the capacity to 40 |
| Scenarios.InsertCharDoubles | StringBuilderTest.java:164-174 | `insert(1, 'G')` at 70% occupancy gives "DGABCDDD" in 20 slots |
| Scenarios.AppendBooleans | StringBuilderTest.java:234-244 | appending `false` after "true" gives "truefalse" in 20 slots (the test's boxed `Boolean` binds to `append(Object)`, whose text is the same word) |
| Scenarios.InsertInt | StringBuilderTest.java:364-368 | `insert(1, 789)` into "123456" in 10 slots gives "178923456" in 20 |
| Scenarios.Deletions | StringBuilderTest.java:390-470 | `delete(1, 4)` on "Dummu" leaves "Du"; all seven out-of-range deletes on "Test" throw with the code as written; as an illustration, `deleteCharAt(0)` on "Dummu" leaves "ummu" |
| Scenarios.ReverseAndCharAt | StringBuilderTest.java:626-630 | "Dummy" reverses to "ymmuD"; as an illustration, `charAt` on "Dummy" reads 'y' at 4 and throws at -1 and 5 |
| Scenarios.CharAtOutOfRange | StringBuilderTest.java:519-527 | `charAt(-1)` and `charAt(24)` on a fresh buffer throw IndexOutOfBoundsException |
| Scenarios.SearchesForward | StringBuilderTest.java:492-498 | `indexOf("l", 3) == 3` and `indexOf("H", 1) == 5` on "HelloHello" |
| Scenarios.SearchesBackward | StringBuilderTest.java:501-516 | on "HelloHello", from the end (10) `lastIndexOf("o")` is 9 and `lastIndexOf("H")` and `lastIndexOf("Hel")` are 5; `lastIndexOf("llo", 6)` is 2 |
| Scenarios.SearchesBackwardFrom | StringBuilderTest.java:510-515 | on "HelloHello", `lastIndexOf("l", 9) == 8`, `lastIndexOf("l", 7) == 7` and `lastIndexOf("llo", 9) == 7` |

## Left out

- `append(float)`, `append(double)`, `insert(int, float)` and `insert(int, double)`: Java's shortest-repr formatting of floating-point numbers is not modelled.
- `append(Object)` and `insert(int, Object)`: the text comes from an arbitrary `toString()`, which is foreign code. A `Text` value models any given result.
- Null arguments to `append`/`insert` (a `NullPointerException`): sequences cannot be null. Null is modelled only for the `String` constructor, where the code checks it.
- `Buffers.NewBufferWithCapacity` requires `capacity > 0`, and `Planning.RequiredSize` requires `size > 0`. `new StringBuilder(0)` builds a zero-length array. On it, the first `append(char)` throws, and every call that plans space for `n > 0` characters never returns: `getRequiredSize` doubles 0 forever at lines 299-301. An example is `new StringBuilder(0).append("a")`. A negative capacity throws `NegativeArraySizeException`. None of these cases is modelled.
- `Buffers.AppendAt` requires `0 <= length <= chars.length`. Outside that range, Java throws, and the buffer may already have been changed. Neither path is modelled:
  - `length > chars.length`: the buffer first grows and shifts its tail right, and then the second `System.arraycopy` throws.
  - negative `length`: nothing grows. The tail may shift left before the second copy throws, or the first copy throws before any write.
- `int` overflow: lengths and capacities are unbounded integers. Java's `arrSpace *= 2` and `index + arrSize` in `getRequiredSize` wrap once they pass 2^31 - 1. The factors 200 and 151 appear only in the model's exact integer restatement, not in Java.
- `Planning.PercentageOccupied` rounds the exact rational value of `elements * 100 / total`. Java rounds the single-precision result of `(float) e / (float) t * 100`. That path can disagree near the .5 boundaries once the capacity is around 10^5 or more. For example, at `e = 109287`, `t = 144751` the `float` product is exactly 75.5 and rounds to 76, where the model gives 75. So at such sizes, `probeResizing` and `getRequiredSize` may double where the model does not.
- A Java `char` is a UTF-16 code unit, and a Dafny `char` here stands for one such unit that is not a surrogate (a character of the Basic Multilingual Plane). Lone surrogates cannot be represented. A character above U+FFFF, which Java stores as two units and counts twice in `length()` and in capacity planning, is not modelled.
- `length()` and `getCapacity()` are read straight from the fields `index` and `Capacity()`.
- `Lifecycle.Apply` (and so `Lifecycle.Step` and `Lifecycle.Run`) requires `start <= end` for every `delete(start, end)`. The code does not check this, and without it the invariant fails, as `Buffers.DeleteAsWrittenOverfills` shows; see Findings.
- The `Builder` interface, method chaining, and object identity of the returned `this`.
- The mutable object itself: each mutator returns a new value. A thrown exception is `Err`, and the caller keeps the old buffer; in Java nothing was written before the check either.

`delete(start, end)` is meant to remove `[start, end)`, like `java.lang.StringBuilder.delete`.
The code never checks `start <= end`. `Buffers.DeleteAsWritten` follows the code, and
`Buffers.Delete` is the corrected version; see Findings. `Lifecycle` runs the code as written,
under `start <= end`, where the two agree (`Buffers.DeleteAgreesWhenOrdered`). On "Dummu", `delete(1, 4)`
leaves "Du", as the code and its test do.

## Findings

| source | as written | input that shows it | evidently intended | confidence | as-written member | corrected member |
|---|---|---|---|---|---|---|
| StringBuilder.java:69-79 | the bounds check rejects negative, `start >= length` and `end > length`, but not `start > end`; then `index - (end - start)` grows the length | `delete(3, 0)` on "abcdefg" with 10 slots: no exception, the text becomes "abcabcdefg" and length reaches the capacity, so the next `append(char)` throws ArrayIndexOutOfBoundsException after `index` has already become 11, and `toString()` throws from then on | `start > end` throws IndexOutOfBoundsException, and `delete` only ever removes `[start, end)` | not executed | Buffers.DeleteAsWrittenOverfills | Buffers.Delete |

=== FILE: arrays.dfy ===
/** The array primitives the buffer is built on, on array values: allocation, `System.arraycopy`,
    and the in-place loops that shift and reverse a run of elements. */
module Arrays {

  /** `new char[size]`: every element starts as the default char. */
  function NewCharArray(size: nat): (a: seq<char>)
    ensures |a| == size
    ensures forall i :: 0 <= i < size ==> a[i] == '\0'
  {
    seq(size, _ => '\0')
  }

  /** `System.arraycopy(src, srcPos, dest, destPos, length)`, returning the new value of `dest`.
      Passing the same array as `src` and `dest` gives the overlapping case, which the Java SE API
      defines as if the source range were first copied to a temporary array. The API throws
      IndexOutOfBoundsException when a range leaves its array; callers here stay in range. */
  function ArrayCopy(src: seq<char>, srcPos: nat, dest: seq<char>, destPos: nat, length: nat): (r: seq<char>)
    requires srcPos + length <= |src| && destPos + length <= |dest|
    ensures |r| == |dest|
    ensures forall i :: 0 <= i < |r| ==>
              r[i] == if destPos <= i < destPos + length then src[srcPos + (i - destPos)] else dest[i]
  {
    dest[..destPos] + src[srcPos..srcPos + length] + dest[destPos + length..]
  }

  /** An element-by-element copy within one array: forwards when the destination lies to the
      left of the source, backwards otherwise, so no element is overwritten before it is read.
      System.arraycopy is native code; this loop is an illustration, not a transcription, of why
      the same-array calls of `delete`, `append(chars, offset, length)` and `shiftElementsRight`
      behave as if the source range had first been copied aside, which is what `ArrayCopy` states. */
  method CopyWithin(a: seq<char>, srcPos: nat, destPos: nat, length: nat) returns (r: seq<char>)
    requires srcPos + length <= |a| && destPos + length <= |a|
    ensures r == ArrayCopy(a, srcPos, a, destPos, length)
  {
    r := a;
    if destPos <= srcPos {
      var i := 0;
      while i < length
        invariant 0 <= i <= length
        invariant |r| == |a|
        invariant forall j {:trigger r[j]} :: 0 <= j < |a| ==>
                    r[j] == if destPos <= j < destPos + i then a[srcPos + (j - destPos)] else a[j]
      {
        r := r[destPos + i := r[srcPos + i]];
        i := i + 1;
      }
    } else {
      var i := length;
      while i > 0
        invariant 0 <= i <= length
        invariant |r| == |a|
        invariant forall j {:trigger r[j]} :: 0 <= j < |a| ==>
                    r[j] == if destPos + i <= j < destPos + length then a[srcPos + (j - destPos)] else a[j]
      {
        r := r[destPos + i - 1 := r[srcPos + i - 1]];
        i := i - 1;
      }
    }
  }

  /** The loop of `shiftElementsLeft`: every slot from `position` up to `last` takes its right
      neighbour, reading `a[last]` on the final step. */
  method ShiftElementsLeft(a: seq<char>, position: nat, last: nat) returns (r: seq<char>)
    requires position <= last < |a|
    ensures r == ArrayCopy(a, position + 1, a, position, last - position)
  {
    r := a;
    var p := position;
    while p < last
      invariant position <= p <= last
      invariant |r| == |a|
      invariant forall j {:trigger r[j]} :: 0 <= j < |a| ==> r[j] == if position <= j < p then a[j + 1] else a[j]
    {
      var nextPos := p + 1;
      r := r[p := r[nextPos]];
      p := nextPos;
    }
  }

  /** The reverse of a sequence. */
  function Rev(s: seq<char>): (r: seq<char>)
    ensures |r| == |s|
    ensures forall i :: 0 <= i < |s| ==> r[i] == s[|s| - 1 - i]
  {
    seq(|s|, i requires 0 <= i < |s| => s[|s| - 1 - i])
  }

  lemma RevRev(s: seq<char>)
    ensures Rev(Rev(s)) == s
  {
  }

  /** The two-pointer loop of `reverse`: swaps `a[i]` with `a[count - 1 - i]` for every `i`
      below `count / 2`; elements from `count` on are untouched. */
  method ReverseInPlace(a: seq<char>, count: nat) returns (r: seq<char>)
    requires count <= |a|
    ensures r == Rev(a[..count]) + a[count..]
  {
    r := a;
    var middleIndex := count / 2;
    var i := 0;
    while i < middleIndex
      invariant 0 <= i <= middleIndex
      invariant |r| == |a|
      invariant forall j {:trigger r[j]} :: 0 <= j < |a| ==>
                  r[j] == if j < i || count - i <= j < count then a[count - 1 - j] else a[j]
    {
      var tmp := r[i];
      var oppositeIndex := count - 1 - i;
      r := r[i := r[oppositeIndex]];
      r := r[oppositeIndex := tmp];
      i := i + 1;
    }
  }
}

=== FILE: buffers.dfy ===
/** The growable character buffer of `StringBuilder`: a backing array whose length is the
    capacity, and a count of the live characters at its front. Every public operation is a
    function from the old buffer to the new one; `Err` stands for the exception the Java method
    throws, and since every check precedes the first write, the buffer is then left as it was. */
module Buffers {
  import opened Results
  import opened Planning
  import opened Arrays
  import opened Conversions

  /** `arr` is the backing array and `index` the logical length: `arr[..index]` is the text,
      and `arr[index..]` holds stale characters that no operation reads. Each element stands for
      one UTF-16 code unit of the Java array; Dafny's `char` covers the non-surrogate units. */
  datatype Buffer = Buffer(arr: seq<char>, index: nat) {

    /** `getCapacity()`. */
    function Capacity(): nat
    {
      |arr|
    }

    /** The state every public operation keeps: a non-empty array whose rounded occupancy is
        at most the load factor. */
    predicate Valid()
    {
      0 < |arr| && index <= |arr| && PercentageOccupied(index, |arr|) <= LoadFactor
    }

    /** `toString()`: a copy of the live characters. */
    function ToString(): (s: string)
      requires index <= |arr|
      ensures |s| == index
      ensures forall i :: 0 <= i < index ==> s[i] == arr[i]
    {
      arr[..index]
    }
  }

  /** The invariant in integer terms. */
  lemma ValidIff(b: Buffer)
    ensures b.Valid() <==> 0 < |b.arr| && 200 * b.index < 151 * |b.arr|
  {
    if 0 < |b.arr| {
      AboveLoadFactor(b.index, |b.arr|);
    }
  }

  /** A valid buffer always has a free slot, which is what makes the unchecked writes of
      `append(char)` and `insert(int, char)` and the read of `arr[index]` when shifting left
      stay inside the array. */
  lemma ValidHasRoom(b: Buffer)
    requires b.Valid()
    ensures b.index < b.Capacity()
  {
    ValidIff(b);
  }

  /** `new StringBuilder()`. */
  function NewBuffer(): (b: Buffer)
    ensures b.Valid() && b.Capacity() == DefaultSize && b.ToString() == []
  {
    Buffer(NewCharArray(DefaultSize), 0)
  }

  /** `new StringBuilder(capacity)`. */
  function NewBufferWithCapacity(capacity: nat): (b: Buffer)
    requires capacity > 0
    ensures b.Valid() && b.Capacity() == capacity && b.ToString() == []
  {
    Buffer(NewCharArray(capacity), 0)
  }

  /** `new StringBuilder(value)`: `None` is a null String. */
  function NewBufferFrom(value: Option<string>): (r: Result<Buffer>)
    ensures r.Err? <==> value == None || value == Some([])
    ensures r.Err? ==> r.error == InvalidParameter
    ensures r.Ok? ==> r.value.Valid() && r.value.ToString() == value.value
    ensures r.Ok? ==> r.value.Capacity() == RequiredSize(0, DefaultSize, |value.value|)
  {
    match value
    case None => Err(InvalidParameter)
    case Some(s) =>
      if |s| == 0 then Err(InvalidParameter)
      else
        var desiredSize := RequiredSize(0, DefaultSize, |s|);
        Ok(Buffer(ArrayCopy(s, 0, NewCharArray(desiredSize), 0, |s|), |s|))
  }

  /** `resizeArrayAndCopyContent(size)`: a fresh array of `size` slots holding the live text. */
  function Resize(b: Buffer, size: nat): (r: Buffer)
    requires b.index <= |b.arr| && b.index <= size
    ensures r.Capacity() == size && r.index == b.index && r.ToString() == b.ToString()
  {
    Buffer(ArrayCopy(b.arr, 0, NewCharArray(size), 0, b.index), b.index)
  }

  /** `ensureEnoughSpace(n)`: grows to the capacity planned for `n` more characters. */
  function EnsureEnoughSpace(b: Buffer, n: nat): (r: Buffer)
    requires 0 < |b.arr| && b.index <= |b.arr|
    ensures r.Capacity() == RequiredSize(b.index, b.Capacity(), n)
    ensures r.index == b.index && r.ToString() == b.ToString()
    ensures r.Capacity() == b.Capacity() ==> r == b
  {
    var size := RequiredSize(b.index, |b.arr|, n);
    if size != |b.arr| then Resize(b, size) else b
  }

  /** `probeResizing()`: after a single character went in, doubles the capacity once if the
      rounded occupancy has reached the load factor. */
  function ProbeResizing(b: Buffer): (r: Buffer)
    requires 0 < |b.arr| && b.index <= |b.arr|
    ensures r.Capacity() == if 200 * b.index >= 149 * b.Capacity() then 2 * b.Capacity() else b.Capacity()
    ensures r.index == b.index && r.ToString() == b.ToString()
    ensures r.Valid()
  {
    ReachesLoadFactor(b.index, |b.arr|);
    var r := if PercentageOccupied(b.index, |b.arr|) >= LoadFactor then Resize(b, |b.arr| * ResizingFactor) else b;
    ValidIff(r);
    r
  }

  /** `append(char)`: writes into the free slot, then probes for growth. */
  function AppendChar(b: Buffer, value: char): (r: Buffer)
    requires b.Valid()
    ensures r.Valid()
    ensures r.ToString() == b.ToString() + [value]
    ensures r.Capacity() == if 200 * (b.index + 1) >= 149 * b.Capacity() then 2 * b.Capacity() else b.Capacity()
  {
    ValidHasRoom(b);
    var written := Buffer(b.arr[b.index := value], b.index + 1);
    assert written.ToString() == b.ToString() + [value];
    ProbeResizing(written)
  }

  /** `insert(offset, char)`: shifts the tail right by one, writes the character, then probes. */
  function InsertChar(b: Buffer, offset: int, value: char): (r: Result<Buffer>)
    requires b.Valid()
    ensures r.Err? <==> offset < 0 || offset > b.index
    ensures r.Err? ==> r.error == InvalidParameter
    ensures r.Ok? ==> r.value.Valid()
    ensures r.Ok? ==> r.value.ToString() == b.ToString()[..offset] + [value] + b.ToString()[offset..]
    ensures r.Ok? ==>
              r.value.Capacity() == if 200 * (b.index + 1) >= 149 * b.Capacity() then 2 * b.Capacity() else b.Capacity()
  {
    if offset < 0 || offset > b.index then Err(InvalidParameter)
    else
      ValidHasRoom(b);
      var shifted := ArrayCopy(b.arr, offset, b.arr, offset + 1, b.index - offset);
      var written := Buffer(shifted[offset := value], b.index + 1);
      assert written.ToString() == b.ToString()[..offset] + [value] + b.ToString()[offset..];
      Ok(ProbeResizing(written))
  }

  /** `append(char[] chars, int offset, int length)`: inserts the first `length` characters of
      `chars` at position `offset` of the text, after growing to the planned capacity. */
  function AppendAt(b: Buffer, chars: string, offset: int, length: nat): (r: Result<Buffer>)
    requires b.Valid()
    requires length <= |chars|
    ensures r.Err? <==> offset < 0 || offset > b.index
    ensures r.Err? ==> r.error == InvalidParameter
    ensures r.Ok? ==> r.value.Valid()
    ensures r.Ok? ==> r.value.ToString() == b.ToString()[..offset] + chars[..length] + b.ToString()[offset..]
    ensures r.Ok? ==> r.value.Capacity() == RequiredSize(b.index, b.Capacity(), length)
  {
    if offset < 0 || offset > b.index then Err(InvalidParameter)
    else Ok(SpliceIn(EnsureEnoughSpace(b, length), chars, offset, length))
  }

  /** The writes of `append(chars, offset, length)` once the space is there: the tail moves
      right by `length`, then the new characters fill the gap. */
  function SpliceIn(b: Buffer, chars: string, offset: nat, length: nat): (r: Buffer)
    requires 0 < |b.arr| && offset <= b.index && length <= |chars|
    requires Fits(b.index, length, |b.arr|)
    ensures r.Valid() && r.Capacity() == b.Capacity()
    ensures r.ToString() == b.ToString()[..offset] + chars[..length] + b.ToString()[offset..]
  {
    var gapped :=
      if offset < b.index then ArrayCopy(b.arr, offset, b.arr, offset + length, b.index - offset)
      else b.arr;
    OpenGapAndFill(b.arr, b.index, offset, chars, length);
    var filled := ArrayCopy(chars, 0, gapped, offset, length);
    assert b.ToString()[..offset] == b.arr[..offset];
    assert b.ToString()[offset..] == b.arr[offset..b.index];
    Buffer(filled, b.index + length)
  }

  /** Moving the tail `[offset, index)` right by `length` and copying `chars[..length]` into the
      gap puts the new characters at `offset` with the old text on either side. */
  lemma OpenGapAndFill(a: seq<char>, index: nat, offset: nat, chars: string, length: nat)
    requires offset <= index && index + length <= |a| && length <= |chars|
    ensures var gapped := if offset < index then ArrayCopy(a, offset, a, offset + length, index - offset) else a;
            ArrayCopy(chars, 0, gapped, offset, length)[..index + length]
            == a[..offset] + chars[..length] + a[offset..index]
  {
    var gapped := if offset < index then ArrayCopy(a, offset, a, offset + length, index - offset) else a;
    var filled := ArrayCopy(chars, 0, gapped, offset, length);
    var expected := a[..offset] + chars[..length] + a[offset..index];
    assert |gapped| == |a| == |filled|;
    forall i | 0 <= i < index + length
      ensures filled[i] == expected[i]
    {
      if i < offset {
        assert filled[i] == gapped[i];
        assert gapped[i] == a[i];
      } else if i < offset + length {
        assert filled[i] == chars[i - offset];
      } else {
        assert filled[i] == gapped[i];
        assert gapped[i] == a[offset + (i - (offset + length))];
      }
    }
    assert filled[..index + length] == expected;
  }

  /** `appendElements(chars)`: copies `chars` after the text, after growing to the planned capacity. */
  function AppendElements(b: Buffer, chars: string): (r: Buffer)
    requires b.Valid()
    ensures r.Valid()
    ensures r.ToString() == b.ToString() + chars
    ensures r.Capacity() == RequiredSize(b.index, b.Capacity(), |chars|)
  {
    var grown := EnsureEnoughSpace(b, |chars|);
    var filled := Buffer(ArrayCopy(chars, 0, grown.arr, b.index, |chars|), b.index + |chars|);
    assert filled.ToString() == b.ToString() + chars;
    filled
  }

  /** Inserting at the end of the text is appending. */
  lemma AppendAtEndIsAppend(b: Buffer, chars: string)
    requires b.Valid()
    ensures AppendAt(b, chars, b.index, |chars|) == Ok(AppendElements(b, chars))
  {
  }

  /** The `append` overloads for char[], String, int, long and boolean. */
  function Append(b: Buffer, v: Value): (r: Buffer)
    requires b.Valid()
    ensures r.Valid()
    ensures r.ToString() == b.ToString() + Render(v)
    ensures r.Capacity() == RequiredSize(b.index, b.Capacity(), |Render(v)|)
  {
    AppendElements(b, Render(v))
  }

  /** The `insert(offset, …)` overloads for char[], String, int, long and boolean. */
  function Insert(b: Buffer, offset: int, v: Value): (r: Result<Buffer>)
    requires b.Valid()
    ensures r.Err? <==> offset < 0 || offset > b.index
    ensures r.Err? ==> r.error == InvalidParameter
    ensures r.Ok? ==> r.value.Valid()
    ensures r.Ok? ==> r.value.ToString() == b.ToString()[..offset] + Render(v) + b.ToString()[offset..]
    ensures r.Ok? ==> r.value.Capacity() == RequiredSize(b.index, b.Capacity(), |Render(v)|)
  {
    var chars := Render(v);
    assert chars[..|chars|] == chars;
    AppendAt(b, chars, offset, |chars|)
  }

  /** `charAt(position)`. */
  function CharAt(b: Buffer, position: int): (r: Result<char>)
    requires b.index <= |b.arr|
    ensures r.Err? <==> position < 0 || position >= b.index
    ensures r.Err? ==> r.error == IndexOutOfBounds
    ensures r.Ok? ==> r.value == b.ToString()[position]
  {
    if position < 0 || position >= b.index then Err(IndexOutOfBounds)
    else Ok(b.arr[position])
  }

  /** `deleteCharAt(position)`: every character after `position` moves one slot left. The shift is
      the copy `Arrays.ShiftElementsLeft` computes with the Java loop; `DeleteCharAtByLoop` runs it. */
  function DeleteCharAt(b: Buffer, position: int): (r: Result<Buffer>)
    requires b.Valid()
    ensures r.Err? <==> position < 0 || position >= b.index
    ensures r.Err? ==> r.error == IndexOutOfBounds
    ensures r.Ok? ==> r.value.Valid() && r.value.Capacity() == b.Capacity()
    ensures r.Ok? ==> r.value.ToString() == b.ToString()[..position] + b.ToString()[position + 1..]
  {
    if position < 0 || position >= b.index then Err(IndexOutOfBounds)
    else
      ValidHasRoom(b);
      var shifted := Buffer(ArrayCopy(b.arr, position + 1, b.arr, position, b.index - position), b.index - 1);
      CloseOneSlot(b.arr, b.index, position);
      ValidIff(b);
      ValidIff(shifted);
      Ok(shifted)
  }

  /** Shifting `(position, index]` one slot left drops the character at `position`. */
  lemma CloseOneSlot(a: seq<char>, index: nat, position: nat)
    requires position < index < |a|
    ensures ArrayCopy(a, position + 1, a, position, index - position)[..index - 1]
            == a[..index][..position] + a[..index][position + 1..]
  {
    var moved := ArrayCopy(a, position + 1, a, position, index - position);
    var expected := a[..index][..position] + a[..index][position + 1..];
    forall i | 0 <= i < index - 1
      ensures moved[i] == expected[i]
    {
      if i < position {
        assert moved[i] == a[i];
      } else {
        assert moved[i] == a[i + 1];
      }
    }
    assert moved[..index - 1] == expected;
  }

  /** Copying `[end, index)` down to `start` leaves the text without `[start, end)` (and, when
      `start > end`, with `[end, start)` repeated). */
  lemma CloseRange(a: seq<char>, index: nat, start: nat, end: nat)
    requires start < index <= |a| && end <= index
    requires end != index ==> start + (index - end) <= |a|
    ensures var moved := if end != index then ArrayCopy(a, end, a, start, index - end) else a;
            moved[..index - end + start] == a[..index][..start] + a[..index][end..]
  {
    var moved := if end != index then ArrayCopy(a, end, a, start, index - end) else a;
    var expected := a[..index][..start] + a[..index][end..];
    forall i | 0 <= i < index - end + start
      ensures moved[i] == expected[i]
    {
      if i < start {
        assert moved[i] == a[i];
      } else {
        assert moved[i] == a[end + (i - start)];
      }
    }
    assert moved[..index - end + start] == expected;
  }

  /** `delete(start, end)` as written: the bounds test does not compare `start` with `end`, and
      a `start` past `end` is caught only when System.arraycopy's destination range leaves the
      array (ArrayIndexOutOfBoundsException, a kind of IndexOutOfBoundsException). */
  function DeleteAsWritten(b: Buffer, start: int, end: int): (r: Result<Buffer>)
    requires b.index <= |b.arr|
    ensures r.Err? <==>
              || start < 0 || end < 0 || start >= b.index || end > b.index
              || (end != b.index && start + (b.index - end) > |b.arr|)
    ensures r.Err? ==> r.error == IndexOutOfBounds
    ensures r.Ok? ==> r.value.Capacity() == b.Capacity() && r.value.index == b.index - (end - start)
    ensures r.Ok? ==> r.value.ToString() == b.ToString()[..start] + b.ToString()[end..]
  {
    if start < 0 || end < 0 || start >= b.index || end > b.index then Err(IndexOutOfBounds)
    else if end != b.index && start + (b.index - end) > |b.arr| then Err(IndexOutOfBounds)
    else
      var elementsToDelete := end - start;
      var moved := if end != b.index then ArrayCopy(b.arr, end, b.arr, start, b.index - end) else b.arr;
      var shrunk := Buffer(moved, b.index - elementsToDelete);
      CloseRange(b.arr, b.index, start, end);
      Ok(shrunk)
  }

  /** `delete(start, end)` with the missing `start > end` check added: removes `[start, end)`. */
  function Delete(b: Buffer, start: int, end: int): (r: Result<Buffer>)
    requires b.Valid()
    ensures r.Err? <==> start < 0 || end < 0 || start >= b.index || end > b.index || start > end
    ensures r.Err? ==> r.error == IndexOutOfBounds
    ensures r.Ok? ==> r.value.Valid() && r.value.Capacity() == b.Capacity()
    ensures r.Ok? ==> r.value.ToString() == b.ToString()[..start] + b.ToString()[end..]
  {
    if start < 0 || end < 0 || start >= b.index || end > b.index || start > end then Err(IndexOutOfBounds)
    else
      var elementsToDelete := end - start;
      var moved := if end != b.index then ArrayCopy(b.arr, end, b.arr, start, b.index - end) else b.arr;
      var shrunk := Buffer(moved, b.index - elementsToDelete);
      CloseRange(b.arr, b.index, start, end);
      ValidIff(b);
      ValidIff(shrunk);
      Ok(shrunk)
  }

  /** On ordered bounds the two agree; they differ only when `start > end`. */
  lemma DeleteAgreesWhenOrdered(b: Buffer, start: int, end: int)
    requires b.Valid() && start <= end
    ensures DeleteAsWritten(b, start, end) == Delete(b, start, end)
  {
  }

  /** As written, `delete(3, 0)` on "abcdefg" in a 10-slot array succeeds, duplicates "abc" and
      fills the array to the last slot, so the next `append(char)` throws
      ArrayIndexOutOfBoundsException after `index` has already become 11, and `toString()` throws
      from then on. */
  lemma DeleteAsWrittenOverfills()
    ensures var b := Buffer("abcdefg" + NewCharArray(3), 7);
            && b.Valid()
            && DeleteAsWritten(b, 3, 0).Ok?
            && DeleteAsWritten(b, 3, 0).value.ToString() == "abcabcdefg"
            && DeleteAsWritten(b, 3, 0).value.index == DeleteAsWritten(b, 3, 0).value.Capacity()
            && !DeleteAsWritten(b, 3, 0).value.Valid()
            && Delete(b, 3, 0) == Err(IndexOutOfBounds)
  {
    var b := Buffer("abcdefg" + NewCharArray(3), 7);
    assert b.ToString() == "abcdefg";
    ValidIff(b);
    var r := DeleteAsWritten(b, 3, 0);
    assert r.value.ToString() == b.ToString()[..3] + b.ToString()[0..];
    ValidIff(r.value);
  }

  /** `reverse()`: the text reversed in place; stale slots are not touched. The swap loop itself is
      `Arrays.ReverseInPlace`; `ReverseByLoop` runs it. */
  function Reverse(b: Buffer): (r: Buffer)
    requires b.index <= |b.arr|
    ensures r.Capacity() == b.Capacity() && r.index == b.index
    ensures r.ToString() == Rev(b.ToString())
    ensures r.arr[r.index..] == b.arr[b.index..]
    ensures b.Valid() ==> r.Valid()
  {
    var r := Buffer(Rev(b.arr[..b.index]) + b.arr[b.index..], b.index);
    assert r.ToString() == Rev(b.ToString());
    r
  }

  /** Reversing twice gives back the very same buffer. */
  lemma ReverseTwice(b: Buffer)
    requires b.index <= |b.arr|
    ensures Reverse(Reverse(b)) == b
  {
    var r := Reverse(b);
    RevRev(b.ToString());
    assert Reverse(r).arr == Rev(r.ToString()) + r.arr[r.index..];
    assert b.arr == b.ToString() + b.arr[b.index..];
  }

  /** `deleteCharAt(position)` step by step as the Java method does it: the bounds check, the
      `shiftElementsLeft` loop up to `index`, then the shorter length. */
  method DeleteCharAtByLoop(b: Buffer, position: int) returns (r: Result<Buffer>)
    requires b.Valid()
    ensures r == DeleteCharAt(b, position)
  {
    if position < 0 || position >= b.index {
      return Err(IndexOutOfBounds);
    }
    ValidHasRoom(b);
    var shifted := ShiftElementsLeft(b.arr, position, b.index);
    r := Ok(Buffer(shifted, b.index - 1));
  }

  /** `reverse()` step by step: the swap loop over the first `index` slots. */
  method ReverseByLoop(b: Buffer) returns (r: Buffer)
    requires b.index <= |b.arr|
    ensures r == Reverse(b)
  {
    var swapped := ReverseInPlace(b.arr, b.index);
    r := Buffer(swapped, b.index);
  }
}

=== FILE: conversions.dfy ===
/** The text a non-character value is appended or inserted as. */
module Conversions {

  /** Java's `int` and `long` ranges. */
  newtype Int32 = x: int | -0x8000_0000 <= x < 0x8000_0000
  newtype Int64 = x: int | -0x8000_0000_0000_0000 <= x < 0x8000_0000_0000_0000

  /** The values the append and insert overloads accept besides a single char:
      a char array or a String (both a run of chars), an int, a long and a boolean. */
  datatype Value =
    | Text(chars: string)
    | IntValue(i: Int32)
    | LongValue(l: Int64)
    | BoolValue(b: bool)

  predicate IsDigit(c: char)
  {
    '0' <= c <= '9'
  }

  function DigitChar(d: nat): (c: char)
    requires d < 10
    ensures IsDigit(c) && DigitValue(c) == d
  {
    ('0' as int + d) as char
  }

  function DigitValue(c: char): (d: nat)
    requires IsDigit(c)
  {
    (c - '0') as nat
  }

  /** The decimal digits of `n`, without leading zeros. */
  function NaturalDigits(n: nat): (s: string)
    ensures |s| > 0
    ensures forall i :: 0 <= i < |s| ==> IsDigit(s[i])
    ensures |s| > 1 ==> s[0] != '0'
    decreases n
  {
    if n < 10 then [DigitChar(n)] else NaturalDigits(n / 10) + [DigitChar(n % 10)]
  }

  /** `String.valueOf` of an int or a long: an optional minus sign, then the digits. */
  function DecimalString(v: int): (s: string)
    ensures |s| > 0
    ensures s[0] == '-' <==> v < 0
    ensures forall i :: (if v < 0 then 1 else 0) <= i < |s| ==> IsDigit(s[i])
    ensures IsCanonicalDecimal(s)
  {
    if v < 0 then "-" + NaturalDigits(-v) else NaturalDigits(v)
  }

  /** The number a run of decimal digits spells. */
  function ParseNatural(s: string): nat
    requires forall i :: 0 <= i < |s| ==> IsDigit(s[i])
  {
    if |s| == 0 then 0 else 10 * ParseNatural(s[..|s| - 1]) + DigitValue(s[|s| - 1])
  }

  /** An optional minus sign followed by decimal digits. */
  predicate IsDecimal(s: string)
  {
    |s| > 0 && forall i :: (if s[0] == '-' then 1 else 0) <= i < |s| ==> IsDigit(s[i])
  }

  /** The one text `String.valueOf` gives a number: a decimal string with at least one digit
      and no leading zero unless the digit is alone. */
  predicate IsCanonicalDecimal(s: string)
  {
    var d := if |s| > 0 && s[0] == '-' then 1 else 0;
    IsDecimal(s) && |s| > d && (|s| > d + 1 ==> s[d] != '0')
  }

  /** The number a decimal string with an optional minus sign spells. */
  function ParseDecimal(s: string): int
    requires IsDecimal(s)
  {
    if s[0] == '-' then -(ParseNatural(s[1..]) as int) else ParseNatural(s)
  }

  lemma {:induction false} NaturalDigitsRoundTrip(n: nat)
    ensures ParseNatural(NaturalDigits(n)) == n
    decreases n
  {
    if n >= 10 {
      var s := NaturalDigits(n);
      assert s[..|s| - 1] == NaturalDigits(n / 10);
      NaturalDigitsRoundTrip(n / 10);
    }
  }

  /** The decimal text of an integer reads back as that integer. */
  lemma DecimalRoundTrip(v: int)
    ensures ParseDecimal(DecimalString(v)) == v
  {
    if v < 0 {
      assert DecimalString(v)[1..] == NaturalDigits(-v);
      NaturalDigitsRoundTrip(-v);
    } else {
      NaturalDigitsRoundTrip(v);
    }
  }

  /** `getBooleanCharArrRepresentation`: the literal words `true` and `false`. */
  function BooleanChars(value: bool): (r: string)
    ensures r == "true" <==> value
    ensures r == "true" || r == "false"
  {
    if value then ['t', 'r', 'u', 'e'] else ['f', 'a', 'l', 's', 'e']
  }

  /** The run of chars a value contributes to the buffer: a char array or String as it is, a
      number as decimal text that reads back as the same number, a boolean as its word. */
  function Render(v: Value): (r: string)
    ensures v.Text? ==> r == v.chars
    ensures v.IntValue? ==> IsCanonicalDecimal(r) && (r[0] == '-' <==> v.i < 0) && ParseDecimal(r) == v.i as int
    ensures v.LongValue? ==> IsCanonicalDecimal(r) && (r[0] == '-' <==> v.l < 0) && ParseDecimal(r) == v.l as int
    ensures v.BoolValue? ==> (r == "true" <==> v.b) && (r == "true" || r == "false")
  {
    match v
    case Text(chars) => chars
    case IntValue(i) =>
      DecimalRoundTrip(i as int);
      DecimalString(i as int)
    case LongValue(l) =>
      DecimalRoundTrip(l as int);
      DecimalString(l as int)
    case BoolValue(b) => BooleanChars(b)
  }
}

=== FILE: lifecycle.dfy ===
/** A buffer's life as a sequence of public mutator calls, with the code as written: whatever the
    calls, the load-factor invariant survives and the capacity only ever changes by doubling, as
    long as every `delete(start, end)` has `start <= end` (without it, `DeleteAsWrittenOverfills`
    breaks the invariant). */
module Lifecycle {
  import opened Results
  import opened Planning
  import opened Conversions
  import opened Buffers

  /** One call of a public mutator, with its arguments. */
  datatype Op =
    | AppendCharOp(c: char)
    | InsertCharOp(offset: int, c: char)
    | AppendOp(v: Value)
    | AppendAtOp(chars: string, offset: int, length: nat)
    | InsertOp(offset: int, v: Value)
    | DeleteCharAtOp(position: int)
    | DeleteOp(start: int, end: int)
    | ReverseOp

  /** `append(chars, offset, length)` is only modelled for a length within `chars`, and
      `delete(start, end)` is called with ordered bounds, the precondition its code leaves
      unchecked. */
  predicate Admissible(op: Op)
  {
    && (op.AppendAtOp? ==> op.length <= |op.chars|)
    && (op.DeleteOp? ==> op.start <= op.end)
  }

  /** `c` is `c0` doubled some number of times. */
  ghost predicate GrownByDoubling(c0: nat, c: nat)
  {
    exists k: nat :: c == c0 * Pow2(k)
  }

  lemma {:induction false} Pow2Add(a: nat, b: nat)
    ensures Pow2(a + b) == Pow2(a) * Pow2(b)
    decreases a
  {
    if a > 0 {
      Pow2Add(a - 1, b);
      assert Pow2(a + b) == 2 * Pow2(a - 1 + b);
    }
  }

  lemma MulAssociates(a: nat, b: nat, c: nat)
    ensures (a * b) * c == a * (b * c)
  {
  }

  lemma DoublingTransitive(c0: nat, c1: nat, c2: nat)
    requires GrownByDoubling(c0, c1) && GrownByDoubling(c1, c2)
    ensures GrownByDoubling(c0, c2)
  {
    var k1: nat :| c1 == c0 * Pow2(k1);
    var k2: nat :| c2 == c1 * Pow2(k2);
    Pow2Add(k1, k2);
    MulAssociates(c0, Pow2(k1), Pow2(k2));
    assert c2 == c0 * Pow2(k1 + k2);
  }

  lemma DoublingNeverShrinks(c0: nat, c: nat)
    requires GrownByDoubling(c0, c)
    ensures c >= c0
  {
    var k: nat :| c == c0 * Pow2(k);
    ScaleLe(c0, 1, Pow2(k));
  }

  /** The capacity chosen by the planner is a doubling of the old one. */
  lemma PlannedIsDoubling(index: nat, size: nat, n: nat)
    requires size > 0
    ensures GrownByDoubling(size, RequiredSize(index, size, n))
  {
    RequiredSizeIsLeastDoubling(index, size, n);
  }

  /** One public mutator call, with `delete` as written. */
  function Apply(b: Buffer, op: Op): (r: Result<Buffer>)
    requires b.Valid() && Admissible(op)
    ensures r.Ok? ==> r.value.Valid() && GrownByDoubling(b.Capacity(), r.value.Capacity())
  {
    assert b.Capacity() == b.Capacity() * Pow2(0);
    assert 2 * b.Capacity() == b.Capacity() * Pow2(1);
    match op
    case AppendCharOp(c) => Ok(AppendChar(b, c))
    case InsertCharOp(offset, c) => InsertChar(b, offset, c)
    case AppendOp(v) =>
      PlannedIsDoubling(b.index, b.Capacity(), |Render(v)|);
      Ok(Append(b, v))
    case AppendAtOp(chars, offset, length) =>
      PlannedIsDoubling(b.index, b.Capacity(), length);
      AppendAt(b, chars, offset, length)
    case InsertOp(offset, v) =>
      PlannedIsDoubling(b.index, b.Capacity(), |Render(v)|);
      Insert(b, offset, v)
    case DeleteCharAtOp(position) => DeleteCharAt(b, position)
    case DeleteOp(start, end) =>
      DeleteAgreesWhenOrdered(b, start, end);
      DeleteAsWritten(b, start, end)
    case ReverseOp => Ok(Reverse(b))
  }

  /** The buffer after a call: a call that throws leaves it as it was. */
  function Step(b: Buffer, op: Op): (r: Buffer)
    requires b.Valid() && Admissible(op)
    ensures r.Valid()
  {
    match Apply(b, op)
    case Ok(b') => b'
    case Err(_) => b
  }

  /** Runs the calls in order. Every state reached keeps the rounded occupancy at or below the
      load factor, so `index` stays below the capacity, and the capacity never shrinks and
      only ever changes by doubling. */
  function Run(b: Buffer, ops: seq<Op>): (r: Buffer)
    requires b.Valid()
    requires forall i :: 0 <= i < |ops| ==> Admissible(ops[i])
    ensures r.Valid() && r.index < r.Capacity()
    ensures GrownByDoubling(b.Capacity(), r.Capacity()) && r.Capacity() >= b.Capacity()
    decreases |ops|
  {
    if |ops| == 0 then
      assert b.Capacity() == b.Capacity() * Pow2(0);
      ValidHasRoom(b);
      b
    else
      var next := Step(b, ops[0]);
      assert GrownByDoubling(b.Capacity(), next.Capacity()) by {
        assert b.Capacity() == b.Capacity() * Pow2(0);
      }
      var r := Run(next, ops[1..]);
      DoublingTransitive(b.Capacity(), next.Capacity(), r.Capacity());
      DoublingNeverShrinks(b.Capacity(), r.Capacity());
      r
  }

  lemma AddedAllUnfolds(ops: seq<Op>)
    requires |ops| > 0
    ensures AddedAll(ops) == Added(ops[0]) + AddedAll(ops[1..])
  {
  }

  /** A non-empty run is its first call followed by the rest. */
  lemma RunUnfolds(b: Buffer, ops: seq<Op>)
    requires b.Valid() && |ops| > 0
    requires forall i :: 0 <= i < |ops| ==> Admissible(ops[i])
    ensures Run(b, ops) == Run(Step(b, ops[0]), ops[1..])
  {
  }

  /** The characters an appending call adds to the end of the text. */
  function Added(op: Op): string
  {
    match op
    case AppendCharOp(c) => [c]
    case AppendOp(v) => Render(v)
    case _ => []
  }

  function AddedAll(ops: seq<Op>): string
  {
    if |ops| == 0 then [] else Added(ops[0]) + AddedAll(ops[1..])
  }

  lemma StepAppends(b: Buffer, op: Op)
    requires b.Valid()
    requires op.AppendCharOp? || op.AppendOp?
    ensures Step(b, op).ToString() == b.ToString() + Added(op)
  {
    if op.AppendCharOp? {
      assert Step(b, op) == AppendChar(b, op.c);
    } else {
      assert Step(b, op) == Append(b, op.v);
    }
  }

  lemma Chain(s0: string, s1: string, s2: string, first: string, later: string)
    requires s1 == s0 + first && s2 == s1 + later
    ensures s2 == s0 + (first + later)
  {
  }

  /** A run of appends leaves the old text followed by everything appended, in order; so the
      length grows by the total count of appended characters. */
  lemma {:induction false} AppendsConcatenate(b: Buffer, ops: seq<Op>)
    requires b.Valid()
    requires forall i :: 0 <= i < |ops| ==> ops[i].AppendCharOp? || ops[i].AppendOp?
    ensures Run(b, ops).ToString() == b.ToString() + AddedAll(ops)
    ensures Run(b, ops).index == b.index + |AddedAll(ops)|
    decreases |ops|
  {
    if |ops| > 0 {
      var next := Step(b, ops[0]);
      var rest := ops[1..];
      assert forall i :: 0 <= i < |rest| ==> rest[i] == ops[i + 1];
      StepAppends(b, ops[0]);
      RunUnfolds(b, ops);
      AppendsConcatenate(next, rest);
      AddedAllUnfolds(ops);
      Chain(b.ToString(), next.ToString(), Run(b, ops).ToString(), Added(ops[0]), AddedAll(rest));
    }
  }
}

=== FILE: planning.dfy ===
/** Capacity planning: the load-factor arithmetic and the doubling loop that picks a new capacity. */
module Planning {

  const DefaultSize: nat := 10
  const ResizingFactor: nat := 2
  const LoadFactor: nat := 75

  /** `Math.round(elements / total * 100)`: the occupancy in percent, rounded half up.
      The float computation is replaced by exact integer arithmetic. */
  function PercentageOccupied(elements: nat, total: nat): (p: nat)
    requires total > 0
    ensures 2 * total * p <= 200 * elements + total < 2 * total * (p + 1)
  {
    (200 * elements + total) / (2 * total)
  }

  /** Multiplying by a non-negative factor keeps an inequality. */
  lemma ScaleLe(c: nat, a: int, b: int)
    requires a <= b
    ensures c * a <= c * b
  {
  }

  /** The rounded occupancy exceeds the load factor exactly when 200 * elements >= 151 * total. */
  lemma AboveLoadFactor(elements: nat, total: nat)
    requires total > 0
    ensures PercentageOccupied(elements, total) > LoadFactor <==> 200 * elements >= 151 * total
  {
    var p := PercentageOccupied(elements, total);
    if p > LoadFactor {
      ScaleLe(2 * total, 76, p);
    } else {
      ScaleLe(2 * total, p + 1, 76);
    }
  }

  /** The rounded occupancy reaches the load factor exactly when 200 * elements >= 149 * total. */
  lemma ReachesLoadFactor(elements: nat, total: nat)
    requires total > 0
    ensures PercentageOccupied(elements, total) >= LoadFactor <==> 200 * elements >= 149 * total
  {
    var p := PercentageOccupied(elements, total);
    if p >= LoadFactor {
      ScaleLe(2 * total, 75, p);
    } else {
      ScaleLe(2 * total, p + 1, 75);
    }
  }

  /** A capacity `size` can take `n` more units after the first `index` ones: the free space
      suffices and the rounded occupancy afterwards stays at or below the load factor. */
  predicate Fits(index: nat, n: nat, size: nat)
  {
    size > 0 && size - index >= n && PercentageOccupied(index + n, size) <= LoadFactor
  }

  lemma FitsIff(index: nat, n: nat, size: nat)
    requires size > 0
    ensures Fits(index, n, size) <==> 200 * (index + n) < 151 * size
  {
    AboveLoadFactor(index + n, size);
  }

  function Pow2(k: nat): (p: nat)
    ensures p >= 1
  {
    if k == 0 then 1 else 2 * Pow2(k - 1)
  }

  /** Doubling first and then k more times is doubling k + 1 times. */
  lemma DoubledThenPow2(size: nat, k: nat)
    ensures (size * ResizingFactor) * Pow2(k) == size * Pow2(k + 1)
  {
    calc {
      (size * 2) * Pow2(k);
      size * (2 * Pow2(k));
      size * Pow2(k + 1);
    }
  }

  /** `r` is `size` doubled the least number of times that makes it fit. */
  ghost predicate IsLeastFittingDoubling(index: nat, n: nat, size: nat, r: nat)
  {
    exists k: nat ::
      && r == size * Pow2(k)
      && Fits(index, n, r)
      && forall j: nat :: j < k ==> !Fits(index, n, size * Pow2(j))
  }

  /** The capacity `getRequiredSize` settles on: double `size` until `n` more units fit. */
  function RequiredSize(index: nat, size: nat, n: nat): (r: nat)
    requires size > 0
    ensures r >= size && Fits(index, n, r)
    decreases 200 * (index + n) - 151 * size
  {
    if size - index < n || PercentageOccupied(index + n, size) > LoadFactor then
      AboveLoadFactor(index + n, size);
      RequiredSize(index, size * ResizingFactor, n)
    else
      size
  }

  /** If `size` does not fit and none of the first `k` doublings of `2 * size` does, then none
      of the first `k + 1` doublings of `size` does. */
  lemma NoEarlierFit(index: nat, n: nat, size: nat, k: nat)
    requires !Fits(index, n, size)
    requires forall j: nat :: j < k ==> !Fits(index, n, (size * ResizingFactor) * Pow2(j))
    ensures forall j: nat :: j < k + 1 ==> !Fits(index, n, size * Pow2(j))
  {
    forall j: nat | j < k + 1
      ensures !Fits(index, n, size * Pow2(j))
    {
      if j > 0 {
        DoubledThenPow2(size, j - 1);
      }
    }
  }

  lemma {:induction false} RequiredSizeIsLeastDoubling(index: nat, size: nat, n: nat)
    requires size > 0
    ensures IsLeastFittingDoubling(index, n, size, RequiredSize(index, size, n))
    decreases 200 * (index + n) - 151 * size
  {
    var r := RequiredSize(index, size, n);
    if Fits(index, n, size) {
      assert r == size * Pow2(0);
    } else {
      AboveLoadFactor(index + n, size);
      var size' := size * ResizingFactor;
      assert r == RequiredSize(index, size', n);
      RequiredSizeIsLeastDoubling(index, size', n);
      var k: nat :| r == size' * Pow2(k) && Fits(index, n, r)
               && forall j: nat :: j < k ==> !Fits(index, n, size' * Pow2(j));
      DoubledThenPow2(size, k);
      NoEarlierFit(index, n, size, k);
      assert r == size * Pow2(k + 1);
    }
  }

  /** The doubling loop of `getRequiredSize`; `currentLength` is the starting capacity and
      `arrSize` the number of units about to be added after the first `index`. */
  method GetRequiredSize(index: nat, currentLength: nat, arrSize: nat) returns (arrSpace: nat)
    requires currentLength > 0
    ensures arrSpace == RequiredSize(index, currentLength, arrSize)
    ensures arrSpace >= currentLength && Fits(index, arrSize, arrSpace)
  {
    arrSpace := currentLength;
    while arrSpace - index < arrSize || PercentageOccupied(index + arrSize, arrSpace) > LoadFactor
      invariant arrSpace > 0
      invariant RequiredSize(index, arrSpace, arrSize) == RequiredSize(index, currentLength, arrSize)
      decreases 200 * (index + arrSize) - 151 * arrSpace
    {
      AboveLoadFactor(index + arrSize, arrSpace);
      arrSpace := arrSpace * ResizingFactor;
    }
  }
}

=== FILE: results.dfy ===
/** Outcomes of the buffer's operations: a Java method either returns normally or throws. */
module Results {

  /** The two exceptions the buffer throws on bad arguments. */
  datatype Error =
    | InvalidParameter   // java.security.InvalidParameterException
    | IndexOutOfBounds   // java.lang.IndexOutOfBoundsException (and its array subclass)

  /** A value that may be absent; `None` stands for a Java `null` reference. */
  datatype Option<+T> = None | Some(value: T)

  /** Either the value a call returns or the exception it throws. */
  datatype Result<+T> = Ok(value: T) | Err(error: Error)
}

=== FILE: scenarios.dfy ===
/** Concrete runs with the values the repository's tests expect. */
module Scenarios {
  import opened Results
  import opened Planning
  import opened Conversions
  import opened Buffers
  import opened Search

  /** Capacity planning from the default size: "Test" fits in 10, 90 characters need 160. */
  lemma PlannedCapacities()
    ensures RequiredSize(0, DefaultSize, 4) == 10
    ensures RequiredSize(0, DefaultSize, 90) == 160
  {
  }

  /** `new StringBuilder("Test")` and a 90-character string. */
  lemma ConstructFromString(s: string)
    requires |s| == 90
    ensures NewBufferFrom(Some("Test")).Ok?
    ensures NewBufferFrom(Some("Test")).value.Capacity() == 10
    ensures NewBufferFrom(Some("Test")).value.ToString() == "Test"
    ensures NewBufferFrom(Some(s)).Ok? && NewBufferFrom(Some(s)).value.Capacity() == 160
    ensures NewBufferFrom(Some(s)).value.index == 90
  {
    PlannedCapacities();
  }

  /** `new StringBuilder("")` and `new StringBuilder(null)` throw InvalidParameterException. */
  lemma RejectsMissingText()
    ensures NewBufferFrom(Some("")) == Err(InvalidParameter)
    ensures NewBufferFrom(None) == Err(InvalidParameter)
  {
  }

  /** Seven single-character appends keep the default capacity; the eighth doubles it. */
  lemma EightAppends()
    ensures var b7 := AppendChar(AppendChar(AppendChar(AppendChar(AppendChar(AppendChar(AppendChar(
                        NewBuffer(), 'A'), 'B'), 'C'), 'D'), 'D'), 'D'), 'D');
            && b7.Capacity() == 10
            && AppendChar(b7, 'D').Capacity() == 20
            && AppendChar(b7, 'D').ToString() == "ABCDDDDD"
  {
    var b0 := NewBuffer();
    var b1 := AppendChar(b0, 'A');
    var b2 := AppendChar(b1, 'B');
    var b3 := AppendChar(b2, 'C');
    assert b3.index == 3 && b3.Capacity() == 10 && b3.ToString() == "ABC";
    var b4 := AppendChar(b3, 'D');
    var b5 := AppendChar(b4, 'D');
    assert b5.index == 5 && b5.Capacity() == 10 && b5.ToString() == "ABCDD";
    var b6 := AppendChar(b5, 'D');
    var b7 := AppendChar(b6, 'D');
    assert b7.index == 7 && b7.Capacity() == 10 && b7.ToString() == "ABCDDDD";
  }

  /** Splices a whole run of characters in at `offset`, phrased with the text on either side. */
  lemma Splice(b: Buffer, chars: string, offset: nat, before: string, after: string)
    requires b.Valid() && offset <= b.index
    requires b.ToString()[..offset] == before && b.ToString()[offset..] == after
    ensures AppendAt(b, chars, offset, |chars|).Ok?
    ensures AppendAt(b, chars, offset, |chars|).value.ToString() == before + chars + after
  {
    assert chars[..|chars|] == chars;
  }

  lemma EndInsertText()
    ensures "ABCDEF"[..6] == "ABCDEF" && "ABCDEF"[6..] == ""
    ensures "ABCDEF" + "GHI" + "" == "ABCDEFGHI"
  {
  }

  lemma FrontInsertText()
    ensures "ABCDEFGHI"[..0] == "" && "ABCDEFGHI"[0..] == "ABCDEFGHI"
    ensures "" + "MMMM" + "ABCDEFGHI" == "MMMMABCDEFGHI"
  {
  }

  /** Positional inserts through `append(chars, offset, length)`: the third one grows 10 -> 20. */
  lemma AppendAtEndGrows(b: Buffer)
    requires b.Valid() && b.ToString() == "ABCDEF" && b.Capacity() == 10
    ensures AppendAt(b, "GHI", 6, 3).Ok?
    ensures AppendAt(b, "GHI", 6, 3).value.ToString() == "ABCDEFGHI"
    ensures AppendAt(b, "GHI", 6, 3).value.Capacity() == 20
  {
    assert RequiredSize(6, 10, 3) == 20;
    EndInsertText();
    Splice(b, "GHI", 6, "ABCDEF", "");
  }

  /** Inserting at the front keeps the capacity 20. */
  lemma InsertAtFront(b: Buffer)
    requires b.Valid() && b.ToString() == "ABCDEFGHI" && b.Capacity() == 20
    ensures AppendAt(b, "MMMM", 0, 4).Ok?
    ensures AppendAt(b, "MMMM", 0, 4).value.ToString() == "MMMMABCDEFGHI"
    ensures AppendAt(b, "MMMM", 0, 4).value.Capacity() == 20
  {
    assert RequiredSize(9, 20, 4) == 20;
    FrontInsertText();
    Splice(b, "MMMM", 0, "", "ABCDEFGHI");
  }

  lemma MiddleInsertText()
    ensures "MMMMABCDEFGHI"[..4] == "MMMM" && "MMMMABCDEFGHI"[4..] == "ABCDEFGHI"
    ensures "MMMM" + "RRRRRRRRRRRR" + "ABCDEFGHI" == "MMMMRRRRRRRRRRRRABCDEFGHI"
  {
  }

  /** Inserting twelve characters in the middle grows 20 -> 40. */
  lemma InsertInMiddleGrows(b: Buffer)
    requires b.Valid() && b.ToString() == "MMMMABCDEFGHI" && b.Capacity() == 20
    ensures AppendAt(b, "RRRRRRRRRRRR", 4, 12).Ok?
    ensures AppendAt(b, "RRRRRRRRRRRR", 4, 12).value.ToString() == "MMMMRRRRRRRRRRRRABCDEFGHI"
    ensures AppendAt(b, "RRRRRRRRRRRR", 4, 12).value.Capacity() == 40
  {
    assert RequiredSize(13, 20, 12) == 40;
    MiddleInsertText();
    Splice(b, "RRRRRRRRRRRR", 4, "MMMM", "ABCDEFGHI");
  }

  /** `insert(1, 'G')` at 70% occupancy: "DGABCDDD", and the capacity doubles to 20. */
  lemma InsertCharDoubles(b: Buffer)
    requires b.Valid() && b.ToString() == "DABCDDD" && b.Capacity() == 10
    ensures InsertChar(b, 1, 'G').Ok?
    ensures InsertChar(b, 1, 'G').value.ToString() == "DGABCDDD"
    ensures InsertChar(b, 1, 'G').value.Capacity() == 20
  {
  }

  /** Booleans render as the words: "true" then "false" make "truefalse" in 20 slots. The test
      passes `Boolean.TRUE`/`Boolean.FALSE`, which Java binds to `append(Object)`; the boxed
      value's `toString()` is the same word `append(boolean)` writes, so the text is the same. */
  lemma AppendBooleans(b: Buffer)
    requires b.Valid() && b.ToString() == "true" && b.Capacity() == 10
    ensures Append(b, BoolValue(false)).ToString() == "truefalse"
    ensures Append(b, BoolValue(false)).Capacity() == 20
  {
    assert RequiredSize(4, 10, 5) == 20;
  }

  lemma IntInsertText()
    ensures "123456"[..1] == "1" && "123456"[1..] == "23456"
    ensures "1" + "789" + "23456" == "178923456"
  {
  }

  /** `insert(1, 789)` into "123456" in 10 slots gives "178923456" in 20. */
  lemma InsertInt(b: Buffer)
    requires b.Valid() && b.ToString() == "123456" && b.Capacity() == 10
    ensures Insert(b, 1, IntValue(789)).Ok?
    ensures Insert(b, 1, IntValue(789)).value.ToString() == "178923456"
    ensures Insert(b, 1, IntValue(789)).value.Capacity() == 20
  {
    assert Render(IntValue(789)) == "789";
    assert RequiredSize(6, 10, 3) == 20;
    IntInsertText();
    Splice(b, "789", 1, "1", "23456");
  }

  /** `delete(1, 4)` on "Dummu" leaves "Du"; every out-of-range `delete` on "Test" in the tests
      throws, with the code as written. As an illustration, `deleteCharAt(0)` on "Dummu" leaves "ummu". */
  lemma Deletions(b: Buffer, t: Buffer)
    requires b.Valid() && b.ToString() == "Dummu"
    requires t.Valid() && t.ToString() == "Test"
    ensures Delete(b, 1, 4).Ok? && Delete(b, 1, 4).value.ToString() == "Du"
    ensures DeleteCharAt(b, 0).Ok? && DeleteCharAt(b, 0).value.ToString() == "ummu"
    ensures DeleteAsWritten(t, -2, 0) == Err(IndexOutOfBounds)
    ensures DeleteAsWritten(t, 0, -1) == Err(IndexOutOfBounds)
    ensures DeleteAsWritten(t, -1, -1) == Err(IndexOutOfBounds)
    ensures DeleteAsWritten(t, 4, 4) == Err(IndexOutOfBounds)
    ensures DeleteAsWritten(t, 25, 4) == Err(IndexOutOfBounds)
    ensures DeleteAsWritten(t, 0, 5) == Err(IndexOutOfBounds)
    ensures DeleteAsWritten(t, 0, 25) == Err(IndexOutOfBounds)
  {
  }

  /** Reversal of "Dummy", and character access on it (the latter an illustration). */
  lemma ReverseAndCharAt(b: Buffer)
    requires b.Valid() && b.ToString() == "Dummy"
    ensures Reverse(b).ToString() == "ymmuD"
    ensures CharAt(b, 4) == Ok('y')
    ensures CharAt(b, -1) == Err(IndexOutOfBounds) && CharAt(b, 5) == Err(IndexOutOfBounds)
  {
  }

  /** `charAt(-1)` and `charAt(24)` on a fresh buffer throw. */
  lemma CharAtOutOfRange()
    ensures CharAt(NewBuffer(), -1) == Err(IndexOutOfBounds)
    ensures CharAt(NewBuffer(), 24) == Err(IndexOutOfBounds)
  {
  }

  /** Backward search from a position on "HelloHello": "l" from 9 is at 8, "l" from 7 is at 7,
      "llo" from 9 is at 7. */
  lemma SearchesBackwardFrom()
    ensures LastIndexOf("HelloHello", "l", 9) == 8
    ensures LastIndexOf("HelloHello", "l", 7) == 7
    ensures LastIndexOf("HelloHello", "llo", 9) == 7
  {
    var t := "HelloHello";
    assert Occurs(t, "l", 8) && Occurs(t, "l", 7);
    assert t[9..10][0] == 'o' && !Occurs(t, "l", 9);
    assert Occurs(t, "llo", 7);
  }

  /** Forward search on "HelloHello": "l" from 3 is at 3, "H" from 1 is at 5. */
  lemma SearchesForward()
    ensures IndexOf("HelloHello", "l", 3) == 3
    ensures IndexOf("HelloHello", "H", 1) == 5
  {
    var t := "HelloHello";
    assert Occurs(t, "l", 3);
    assert Occurs(t, "H", 5);
    assert t[1] == 'e' && t[2] == 'l' && t[3] == 'l' && t[4] == 'o';
    assert !Occurs(t, "H", 1) && !Occurs(t, "H", 2) && !Occurs(t, "H", 3) && !Occurs(t, "H", 4);
  }

  /** Backward search on "HelloHello": from the end (10) "o" is at 9 and "H" and "Hel" at 5;
      "llo" from 6 is at 2. */
  lemma SearchesBackward()
    ensures LastIndexOf("HelloHello", "o", 10) == 9
    ensures LastIndexOf("HelloHello", "llo", 6) == 2
    ensures LastIndexOf("HelloHello", "H", 10) == 5
    ensures LastIndexOf("HelloHello", "Hel", 10) == 5
  {
    var t := "HelloHello";
    assert Occurs(t, "H", 5) && Occurs(t, "Hel", 5);
    assert t[6..7][0] == 'e' && t[7..8][0] == 'l' && t[8..9][0] == 'l' && t[9..10][0] == 'o';
    assert !Occurs(t, "H", 6) && !Occurs(t, "H", 7) && !Occurs(t, "H", 8) && !Occurs(t, "H", 9);
    assert t[6..9][0] == 'e' && t[7..10][0] == 'l' && !Occurs(t, "Hel", 6) && !Occurs(t, "Hel", 7);
    assert Occurs(t, "o", 9);
    assert Occurs(t, "llo", 2);
    assert t[3..6][1] == 'o' && !Occurs(t, "llo", 3);
    assert t[4..7][0] == 'o' && !Occurs(t, "llo", 4);
    assert t[5..8][0] == 'H' && !Occurs(t, "llo", 5);
    assert t[6..9][0] == 'e' && !Occurs(t, "llo", 6);
  }
}

=== FILE: search.dfy ===
/** Literal substring search over the buffer's text, with the meaning java.lang.String gives
    `indexOf(str, fromIndex)` and `lastIndexOf(str, fromIndex)`. */
module Search {

  /** `needle` occurs in `text` starting at position `k`. */
  predicate Occurs(text: string, needle: string, k: int)
  {
    0 <= k && k + |needle| <= |text| && text[k..k + |needle|] == needle
  }

  /** Forward scan: the first occurrence at or after `k`, or -1. */
  function FirstFrom(text: string, needle: string, k: nat): (r: int)
    requires k <= |text|
    ensures r == -1 || (k <= r && Occurs(text, needle, r))
    ensures r == -1 ==> forall j :: k <= j ==> !Occurs(text, needle, j)
    ensures r != -1 ==> forall j :: k <= j < r ==> !Occurs(text, needle, j)
    decreases |text| - k
  {
    if k + |needle| > |text| then -1
    else if text[k..k + |needle|] == needle then k
    else FirstFrom(text, needle, k + 1)
  }

  /** Backward scan: the last occurrence at or before `k`, or -1. */
  function LastFrom(text: string, needle: string, k: int): (r: int)
    ensures r == -1 || (r <= k && Occurs(text, needle, r))
    ensures r == -1 ==> forall j :: j <= k ==> !Occurs(text, needle, j)
    ensures r != -1 ==> forall j :: r < j <= k ==> !Occurs(text, needle, j)
    decreases k + 1
  {
    if k < 0 then -1
    else if Occurs(text, needle, k) then k
    else LastFrom(text, needle, k - 1)
  }

  /** `String.indexOf(needle, fromIndex)`: the smallest k >= min(fromIndex, |text|) at which
      `needle` occurs, or -1; a negative `fromIndex` searches from the start. */
  function IndexOf(text: string, needle: string, fromIndex: int): (r: int)
    ensures var lo := if fromIndex < |text| then fromIndex else |text|;
            && (r == -1 <==> forall j :: j >= lo && Occurs(text, needle, j) ==> false)
            && (r != -1 ==> Occurs(text, needle, r) && r >= lo)
            && (r != -1 ==> forall j :: lo <= j < r ==> !Occurs(text, needle, j))
  {
    var start := if fromIndex < 0 then 0 else if fromIndex > |text| then |text| else fromIndex;
    FirstFrom(text, needle, start)
  }

  /** `String.lastIndexOf(needle, fromIndex)`: the largest k <= fromIndex at which `needle`
      occurs, or -1. */
  function LastIndexOf(text: string, needle: string, fromIndex: int): (r: int)
    ensures r == -1 <==> forall j :: j <= fromIndex && Occurs(text, needle, j) ==> false
    ensures r != -1 ==> Occurs(text, needle, r) && r <= fromIndex
    ensures r != -1 ==> forall j :: r < j <= fromIndex ==> !Occurs(text, needle, j)
  {
    var start := if fromIndex > |text| - |needle| then |text| - |needle| else fromIndex;
    LastFrom(text, needle, start)
  }

  /** The needle occurs somewhere exactly when both the forward search from the start and
      the backward search from the end find it. */
  lemma FoundEitherWay(text: string, needle: string)
    ensures IndexOf(text, needle, 0) == -1 <==> LastIndexOf(text, needle, |text|) == -1
  {
  }

  /** When the needle occurs, the forward search from the start finds the first occurrence
      and the backward search from the end the last one, so the former is never after the latter. */
  lemma FirstNotAfterLast(text: string, needle: string)
    requires IndexOf(text, needle, 0) != -1
    ensures IndexOf(text, needle, 0) <= LastIndexOf(text, needle, |text|)
  {
  }
}
